=== FILE: README.md ===
# Jeopardy board: reveal machine, board and category selection

A Dafny model of the game logic in `jeopardy.js`, a browser trivia board. It covers three parts:

- **Reveal machine.** `handleClick` moves each body cell through its `showing` marker: unset, then `'question'`, then `'answer'`.
- **Board.** `fillTable` builds a header row with the titles of the first six selected categories and a body of 5 × 6 cells that show `"?"`.
- **Category selection.** `getCategoryIds` appends six sampled ids to the module-level list `finalCategories` on every call.

Network answers and random draws are parameters of the model:

- The category list is a `seq<Id>`.
- The category detail endpoint is a `Catalog`, a map from id to category. A missing key stands for a failed request.
- Each lodash `_.sample` call is `Sampling.Sample(xs, draw)` with a caller-supplied `draw`.

Modules:

- `Wrappers`: `Option`. `None` stands for JavaScript's `undefined`.
- `Sampling`: `_.sample` with the draw as a parameter.
- `Reveal`: markers, clues, cells and the `Activate` transition.
- `Categories`: ids, categories, `getCategoryIds` and `getCategory`.
- `Board`: the table body and the header loop of `fillTable`.
- `Game`: the page state, `handleClick` and `setupAndStart`.

Behaviours of the code that the model keeps:

- An empty category list raises no error. `_.sample([])` is `undefined`, so six `undefined` entries are pushed. The model's ids are therefore `Option<Id>`.
- Fresh cells show `"?"`.
- A failed category fetch in `fillTable` leaves the headers appended so far and builds no body.
- `finalCategories` is appended to and never reset. See Findings.

`Categories.IdAt` reads `finalCategories[i]` and gives `undefined` past the end of the list. `Categories.Fetch` is `getCategory` as a lookup in the `Catalog`: a category comes back exactly when the id is defined and is a key.

## Model

| member | source | states |
|---|---|---|
| Sampling.Sample | jeopardy.js:35 | sampling an empty array yields undefined; otherwise the result is an element of the array |
| Sampling.SampleReaches | jeopardy.js:102 | every element of a non-empty array is the outcome of some draw, so the draw parameter loses no behaviour |
| Reveal.Activate | jeopardy.js:100-111 | a click never moves the marker backwards or skips a state. It either advances the marker or changes nothing. A first click shows the sampled question and stores its answer. A failed fetch or sample leaves the cell as it was. A second click shows exactly the stored answer. A click on an answered cell changes nothing. Reachable cells stay reachable |
| Reveal.ActivateAllMonotone | jeopardy.js:96-111 | over any sequence of clicks the marker only moves forward and cells stay in a reachable state |
| Reveal.AnswerIsTerminal | jeopardy.js:107-111 | once a cell shows its answer, no number of further clicks changes its text, marker or stored answer |
| Reveal.ClicksFromInitial | jeopardy.js:100-111 | a fresh cell clicked n times, the first fetch succeeding, is Hidden for n = 0 and shows the first sample's question for n = 1. For n ≥ 2 it shows the first sample's answer, whatever later clicks would have drawn, failed fetches included |
| Categories.IdAtAppend | jeopardy.js:35 | pushing onto `finalCategories` does not change what an index inside the existing list reads |
| Categories.GetCategoryIds | jeopardy.js:28-38 | a call appends exactly six entries in loop order and keeps the existing ones. Each entry is undefined exactly when the listing is empty; otherwise it is an id of the listing |
| Categories.ReplayGrows | jeopardy.js:21-37 | the list is never cleared: after k calls it has grown by 6k and the earlier entries are unchanged |
| Categories.FirstCallFixesFirstSix | jeopardy.js:21-37 | after a first call and any later ones, the list holds 6(k+1) ids and its first six are those of the first call |
| Board.FillBody | jeopardy.js:77-84 | the body loop builds 5 rows of 6 cells, each showing "?" with no marker |
| Board.FreshBody | jeopardy.js:77-84 | the same 5 × 6 body of "?" cells, as a value |
| Board.FreshBodyUnique | jeopardy.js:77-84 | any two bodies that meet the built-body description are equal, so the loop and the value agree |
| Board.FetchTitles | jeopardy.js:68-73 | header i is the title of category `finalCategories[i]`. The loop stops at the first column whose fetch fails |
| Board.FillTable | jeopardy.js:65-86 | the table is filled exactly when all six fetches succeed, and then it has six headers. Otherwise the headers stop just before the first failing column |
| Board.FillTableReadsFirstSix | jeopardy.js:68-69 | ids after the sixth entry make no difference to the filled table |
| Board.TitlesAgree | jeopardy.js:68-73 | two id lists that agree on the first n columns give the same first n headers |
| Game.DrawClue | jeopardy.js:101-102 | the clue for column c exists exactly when `finalCategories[c]` is a known id with at least one clue. It is then a clue of that category |
| Game.HandleClick | jeopardy.js:96-112 | only the clicked cell changes, and it takes one step of the reveal machine. A clue is drawn only when the cell has no marker. A first click shows a clue of the category at the clicked column's index |
| Game.HandleClickKeepsValid | jeopardy.js:96-112 | clicks keep the body rectangular and every cell in a reachable state |
| Game.HandleClickReadsOwnColumn | jeopardy.js:98-101 | a click reads only `finalCategories[column]`; entries after it make no difference |
| Game.Started | jeopardy.js:65-86 | the page after `fillTable` has that call's headers. It has the fresh body exactly when every fetch succeeded, and no body otherwise |
| Game.SetupAndStart | jeopardy.js:138-143 | a start empties the table, appends six ids and fills the table from the grown list. When the category list request fails, the ids are unchanged and the table stays empty |
| Game.RestartReusesFirstCategories | jeopardy.js:34-69 | once a game has started, a restart shows the same headers whatever ids it draws |
| Game.RestartCounterexample | jeopardy.js:138-143 | concrete case: a first game drawing only category 1 and a restart drawing only category 2 still shows six "one" headers |
| Game.SetupAndStartFresh | jeopardy.js:138-143 | start with the selection reset: the game's ids are exactly the six drawn now |
| Game.FreshStartForgetsPreviousGame | jeopardy.js:138-143 | with the reset, the new page does not depend on the previous page |
| Game.FreshStartUsesNewDraws | jeopardy.js:138-143 | with the reset, header i of the new game is the title of the i-th id drawn for it |
| Game.FreshGameClickUsesItsColumn | jeopardy.js:98-102 | with the reset, a first click on column c of a new game shows a clue of the c-th category drawn for that game |

## Findings

| source | as written | input that shows it | evidently intended | confidence | as-written member | corrected member |
|---|---|---|---|---|---|---|
| jeopardy.js:35 | `setupAndStart` appends six new ids to `finalCategories` but never clears it. `fillTable` and `handleClick` read only indices 0-5, so every restart shows the first game's categories | first start with category list `[1]`, restart with list `[2]`: all six headers of the second game are category 1's | each start uses the six ids drawn for it | high (not executed) | Game.SetupAndStart, Game.RestartReusesFirstCategories | Game.SetupAndStartFresh, Game.FreshStartUsesNewDraws |

`Game.SetupAndStart` models the code as written. `Game.SetupAndStartFresh` is the corrected start, and the session lemmas about a new game (`FreshStartUsesNewDraws`, `FreshGameClickUsesItsColumn`) are stated over it.

## Left out

- HTTP requests to jservice.io (jeopardy.js:30, 53): they are parameters. The category list is an `Option<seq<Id>>` and the detail endpoint is a `Catalog`.
- Categories.Fetch: a request for an `undefined` id (the URL `category?id=undefined`, jeopardy.js:53) is assumed to fail, because the API's answer to it is not known. While `finalCategories` holds fewer than six entries, an empty category list makes `fillTable` abort and build no body. A later start with an empty list rebuilds the table from the first six ids: the same headers and a fresh body, because its `undefined` ids land past index 5.
- Randomness: `_.sample` is uniform, and the model keeps only which outcomes are possible, through the caller's `draw`.
- jQuery presentation: table and header creation, the `hidden` class, the spinner and the button text (jeopardy.js:66, 72-75, 118-129). Only the header titles and body cells are modelled. Emptying the table at jeopardy.js:139 is modelled: `Game.SetupAndStart` resets headers and body to empty.
- `_.startCase` on header titles (jeopardy.js:70): a library string transform. Headers hold the raw titles.
- `console.log` (jeopardy.js:103): output only.
- Asynchronous interleaving. Two clicks on the same hidden cell can both await a fetch, and the later resolution overwrites the earlier. A click can also arrive during a restart. The model treats each handler as one atomic step. `Reveal.ActivateAllMonotone` and `Reveal.AnswerIsTerminal` hold only because of this: if a cell is answered while a second fetch for it is still pending, that fetch's resolution (jeopardy.js:104-106) sets the marker back from 'answer' to 'question' with a different clue.
- The third branch of `handleClick` (jeopardy.js:110) tests the jQuery object's `showing` property instead of the attribute. Its body is empty, so the model has no effect for any answered cell either way.
- jQuery's attribute coercion: a numeric answer is stored as its string, and a null answer removes the attribute. Clues are modelled as pairs of strings. With the attribute removed, the second click runs `cell.text(undefined)` (jeopardy.js:108), which jQuery ignores. The cell would then keep its question while its marker becomes 'answer', which `Reveal.Valid` rules out.
- Clicks land only on existing body cells (`td`), so `Game.HandleClick` requires the row and column to be inside the body.

=== FILE: board.dfy ===
/** The board `fillTable` builds (jeopardy.js:65-86): a header row with
    the titles of `finalCategories[0..5]` and a body of 5 rows of 6 cells
    showing "?". */
module Board {
  import opened Wrappers
  import opened Reveal
  import opened Categories

  /** Number of body rows. */
  const Rows: nat := 5

  /** The table body, row by row; a cell's column is its index in its row. */
  type Body = seq<seq<Cell>>

  /** Every row has one cell per category column. */
  predicate Rectangular(body: Body)
  {
    forall r :: 0 <= r < |body| ==> |body[r]| == Columns
  }

  /** The body as built: 5 rows of 6 cells, each showing "?" with no marker. */
  predicate IsFreshBody(body: Body)
  {
    && |body| == Rows
    && Rectangular(body)
    && forall r, c :: 0 <= r < |body| && 0 <= c < |body[r]| ==> body[r][c] == InitialCell
  }

  /** Every cell of the body is in a reachable state. */
  predicate ValidBody(body: Body)
  {
    forall r, c :: 0 <= r < |body| && 0 <= c < |body[r]| ==> Valid(body[r][c])
  }

  /** The body loop of `fillTable`, one row and one cell at a time. */
  method FillBody() returns (body: Body)
    ensures IsFreshBody(body)
    ensures ValidBody(body)
  {
    body := [];
    var i := 0;
    while i < Rows
      invariant i <= Rows && |body| == i
      invariant forall r :: 0 <= r < i ==> body[r] == seq(Columns, _ => InitialCell)
    {
      var row: seq<Cell> := [];
      var j := 0;
      while j < Columns
        invariant j <= Columns && |row| == j
        invariant forall c :: 0 <= c < j ==> row[c] == InitialCell
      {
        row := row + [InitialCell];
        j := j + 1;
      }
      body := body + [row];
      i := i + 1;
    }
  }

  /** The same body as a value, for use inside functions. */
  function FreshBody(): (body: Body)
    ensures IsFreshBody(body)
  {
    seq(Rows, _ => seq(Columns, _ => InitialCell))
  }

  /** The fresh body is unique: any two built bodies are equal. */
  lemma FreshBodyUnique(a: Body, b: Body)
    requires IsFreshBody(a) && IsFreshBody(b)
    ensures a == b
  {
    forall r | 0 <= r < Rows
      ensures a[r] == b[r]
    {
      assert forall c :: 0 <= c < Columns ==> a[r][c] == b[r][c];
    }
  }

  /** The header loop of `fillTable` over the first n columns: titles of
      the categories fetched, stopping at the first fetch that fails. */
  function FetchTitles(final: seq<Option<Id>>, catalog: Catalog, n: nat): (r: seq<string>)
    requires n <= Columns
    ensures |r| <= n
    ensures forall i :: 0 <= i < |r| ==>
              Fetch(catalog, IdAt(final, i)).Some? && r[i] == Fetch(catalog, IdAt(final, i)).value.title
    ensures |r| < n ==> Fetch(catalog, IdAt(final, |r|)).None?
    decreases n
  {
    if n == 0 then []
    else
      var prev := FetchTitles(final, catalog, n - 1);
      if |prev| < n - 1 then prev
      else
        match Fetch(catalog, IdAt(final, n - 1))
        case None => prev
        case Some(category) => prev + [category.title]
  }

  /** The outcome of `fillTable`: the header titles and, unless a fetch
      failed, the fresh body. A failing fetch rejects the call, leaving the
      headers appended so far and no body. */
  datatype Fill = Filled(headers: seq<string>) | Aborted(headers: seq<string>)

  function FillTable(final: seq<Option<Id>>, catalog: Catalog): (r: Fill)
    ensures r.Filled? <==> forall i :: 0 <= i < Columns ==> Fetch(catalog, IdAt(final, i)).Some?
    ensures r.Filled? ==> |r.headers| == Columns
    ensures r.Aborted? ==> |r.headers| < Columns && Fetch(catalog, IdAt(final, |r.headers|)).None?
    ensures forall i :: 0 <= i < |r.headers| ==>
              Fetch(catalog, IdAt(final, i)).Some? && r.headers[i] == Fetch(catalog, IdAt(final, i)).value.title
  {
    var headers := FetchTitles(final, catalog, Columns);
    if |headers| == Columns then Filled(headers) else Aborted(headers)
  }

  /** Headers read only `finalCategories[0..5]`: ids after the sixth make no
      difference to the table. */
  lemma FillTableReadsFirstSix(final: seq<Option<Id>>, extra: seq<Option<Id>>, catalog: Catalog)
    requires |final| >= Columns
    ensures FillTable(final + extra, catalog) == FillTable(final, catalog)
  {
    forall i | 0 <= i < Columns
      ensures IdAt(final + extra, i) == IdAt(final, i)
    {
      IdAtAppend(final, extra, i);
    }
    TitlesAgree(final, final + extra, catalog, Columns);
  }

  /** Two id lists that agree on the first n columns give the same titles. */
  lemma {:induction false} TitlesAgree(a: seq<Option<Id>>, b: seq<Option<Id>>, catalog: Catalog, n: nat)
    requires n <= Columns
    requires forall i :: 0 <= i < n ==> IdAt(a, i) == IdAt(b, i)
    ensures FetchTitles(a, catalog, n) == FetchTitles(b, catalog, n)
    decreases n
  {
    if n > 0 {
      TitlesAgree(a, b, catalog, n - 1);
    }
  }
}

=== FILE: categories.dfy ===
/** Category selection and lookup: `getCategoryIds` (jeopardy.js:28-38)
    appending to the module-level `finalCategories` (jeopardy.js:21), and
    `getCategory` (jeopardy.js:52-55) as a lookup in the API's data. */
module Categories {
  import opened Wrappers
  import opened Sampling
  import opened Reveal

  /** A jService category identifier. */
  type Id = int

  /** Number of categories drawn per call, and of board columns. */
  const Columns: nat := 6

  /** A category as the detail endpoint returns it. */
  datatype Category = Category(title: string, clues: seq<Clue>)

  /** What the category detail endpoint would answer, per id; an id that
      is not a key makes the request fail. */
  type Catalog = map<Id, Category>

  /** `finalCategories[i]`: `undefined` past the end of the list. */
  function IdAt(final: seq<Option<Id>>, i: nat): Option<Id>
  {
    if i < |final| then final[i] else None
  }

  /** Pushing onto the list does not change what an index inside the
      existing list reads. */
  lemma IdAtAppend(final: seq<Option<Id>>, extra: seq<Option<Id>>, i: nat)
    requires i < |final|
    ensures IdAt(final + extra, i) == IdAt(final, i)
  {
  }

  /** `getCategory(id)`: the category, or `None` when the request fails
      (an `undefined` id or one the API does not know). */
  function Fetch(catalog: Catalog, id: Option<Id>): Option<Category>
  {
    if id.Some? && id.value in catalog then Some(catalog[id.value]) else None
  }

  /** One call of `getCategoryIds`: `listing` holds the ids of the fetched
      category list, `draws` one random draw per iteration of the loop.
      Six samples are pushed onto `final`, which is returned. */
  function GetCategoryIds(final: seq<Option<Id>>, listing: seq<Id>, draws: seq<nat>): (r: seq<Option<Id>>)
    requires |draws| == Columns
    ensures |r| == |final| + Columns
    ensures r[..|final|] == final
    // an empty listing pushes `undefined`; otherwise each id is from the listing
    ensures forall i :: |final| <= i < |r| ==> (r[i].Some? <==> |listing| > 0)
    ensures forall i :: |final| <= i < |r| && r[i].Some? ==> r[i].value in listing
    // draws are pushed in loop order
    ensures forall k :: 0 <= k < Columns ==> r[|final| + k] == Sample(listing, draws[k])
  {
    final + seq(Columns, i requires 0 <= i < Columns => Sample(listing, draws[i]))
  }

  /** The inputs of one call of `getCategoryIds`. */
  datatype Call = Call(listing: seq<Id>, draws: seq<nat>)

  predicate WellDrawn(calls: seq<Call>)
  {
    forall k :: 0 <= k < |calls| ==> |calls[k].draws| == Columns
  }

  /** `finalCategories` after a series of calls, starting from `final`. */
  function Replay(final: seq<Option<Id>>, calls: seq<Call>): seq<Option<Id>>
    requires WellDrawn(calls)
    decreases |calls|
  {
    if |calls| == 0 then final
    else Replay(GetCategoryIds(final, calls[0].listing, calls[0].draws), calls[1..])
  }

  /** The list is never cleared: each call adds six ids and keeps the
      existing ones, so after k calls from the initial `[]` it holds 6k. */
  lemma {:induction false} ReplayGrows(final: seq<Option<Id>>, calls: seq<Call>)
    requires WellDrawn(calls)
    ensures |Replay(final, calls)| == |final| + Columns * |calls|
    ensures Replay(final, calls)[..|final|] == final
    decreases |calls|
  {
    if |calls| > 0 {
      var next := GetCategoryIds(final, calls[0].listing, calls[0].draws);
      ReplayGrows(next, calls[1..]);
      assert Replay(final, calls)[..|final|] == Replay(next, calls[1..])[..|next|][..|final|];
    }
  }

  /** The first call decides the first six entries for good: whatever
      later calls draw, `finalCategories[0..5]` stay those of the first. */
  lemma FirstCallFixesFirstSix(first: Call, later: seq<Call>)
    requires |first.draws| == Columns && WellDrawn(later)
    ensures |Replay([], [first] + later)| == Columns * (1 + |later|)
    ensures Replay([], [first] + later)[..Columns] == GetCategoryIds([], first.listing, first.draws)
  {
    var calls := [first] + later;
    assert calls[1..] == later;
    var head := GetCategoryIds([], first.listing, first.draws);
    ReplayGrows(head, later);
    ReplayGrows([], calls);
  }
}

=== FILE: game.dfy ===
/** The page state the script drives: the module-level `finalCategories`
    and the table on screen. `setupAndStart` (jeopardy.js:138-143) starts a
    game and `handleClick` (jeopardy.js:96-112) reacts to a click on a body
    cell. */
module Game {
  import opened Wrappers
  import opened Sampling
  import opened Reveal
  import opened Categories
  import opened Board

  /** `finalCategories` plus the table: header titles and body rows. */
  datatype Page = Page(finalCategories: seq<Option<Id>>, headers: seq<string>, body: Body)

  /** The page when the script loads: no ids, an empty table. */
  const InitialPage: Page := Page([], [], [])

  /** The clue the first click on column `col` draws: a sample of the
      clues of category `finalCategories[col]`, or `None` when the fetch
      fails or the category has no clues. */
  function DrawClue(final: seq<Option<Id>>, catalog: Catalog, col: nat, draw: nat): (r: Option<Clue>)
    ensures r.Some? <==>
              && col < |final| && final[col].Some? && final[col].value in catalog
              && |catalog[final[col].value].clues| > 0
    ensures r.Some? ==> r.value in catalog[final[col].value].clues
  {
    match Fetch(catalog, IdAt(final, col))
    case None => None
    case Some(category) => Sample(category.clues, draw)
  }

  /** A click on body cell (row, col). Only a cell without a marker fetches
      its column's category and samples a clue. */
  function HandleClick(p: Page, catalog: Catalog, row: nat, col: nat, draw: nat): (r: Page)
    requires row < |p.body| && col < |p.body[row]|
    // nothing else on the page changes
    ensures r.finalCategories == p.finalCategories && r.headers == p.headers
    ensures |r.body| == |p.body|
    ensures forall i :: 0 <= i < |p.body| ==> |r.body[i]| == |p.body[i]|
    ensures forall i, j :: 0 <= i < |p.body| && 0 <= j < |p.body[i]| && (i, j) != (row, col) ==>
              r.body[i][j] == p.body[i][j]
    // the clicked cell goes through one step of the reveal machine
    ensures r.body[row][col] ==
              Activate(p.body[row][col],
                       if p.body[row][col].marker == Hidden then DrawClue(p.finalCategories, catalog, col, draw) else None)
    // a first click shows a clue of the column's own category
    ensures p.body[row][col].marker == Hidden && r.body[row][col].marker == Question ==>
              && col < |p.finalCategories| && p.finalCategories[col].Some?
              && p.finalCategories[col].value in catalog
              && Clue(r.body[row][col].text, r.body[row][col].answer)
                   in catalog[p.finalCategories[col].value].clues
  {
    var cell := p.body[row][col];
    var sampled := if cell.marker == Hidden then DrawClue(p.finalCategories, catalog, col, draw) else None;
    p.(body := p.body[row := p.body[row][col := Activate(cell, sampled)]])
  }

  /** Clicks keep every body cell in a reachable state and keep the body's
      shape. */
  lemma HandleClickKeepsValid(p: Page, catalog: Catalog, row: nat, col: nat, draw: nat)
    requires row < |p.body| && col < |p.body[row]|
    requires ValidBody(p.body) && Rectangular(p.body)
    ensures ValidBody(HandleClick(p, catalog, row, col, draw).body)
    ensures Rectangular(HandleClick(p, catalog, row, col, draw).body)
  {
    var r := HandleClick(p, catalog, row, col, draw);
    assert Valid(p.body[row][col]);
    forall i, j | 0 <= i < |r.body| && 0 <= j < |r.body[i]|
      ensures Valid(r.body[i][j])
    {
      if (i, j) != (row, col) {
        assert Valid(p.body[i][j]);
      }
    }
  }

  /** A click reads only `finalCategories[col]`: ids past the clicked
      column make no difference. */
  lemma HandleClickReadsOwnColumn(p: Page, extra: seq<Option<Id>>, catalog: Catalog, row: nat, col: nat, draw: nat)
    requires row < |p.body| && col < |p.body[row]| && col < |p.finalCategories|
    ensures HandleClick(p.(finalCategories := p.finalCategories + extra), catalog, row, col, draw)
            == HandleClick(p, catalog, row, col, draw).(finalCategories := p.finalCategories + extra)
  {
    IdAtAppend(p.finalCategories, extra, col);
  }

  /** `setupAndStart` as written: empty the table, append six sampled ids
      to `finalCategories` (`listing` is `None` when the category list
      request fails, which rejects before any id is pushed), then fill the
      table. */
  function SetupAndStart(p: Page, listing: Option<seq<Id>>, draws: seq<nat>, catalog: Catalog): (r: Page)
    requires |draws| == Columns
    ensures listing.None? ==> r == Page(p.finalCategories, [], [])
    ensures listing.Some? ==> r.finalCategories == GetCategoryIds(p.finalCategories, listing.value, draws)
    ensures r.headers == (if listing.None? then [] else FillTable(r.finalCategories, catalog).headers)
    ensures IsFreshBody(r.body) <==> listing.Some? && FillTable(r.finalCategories, catalog).Filled?
    ensures !IsFreshBody(r.body) ==> r.body == []
  {
    match listing
    case None => Page(p.finalCategories, [], [])
    case Some(ids) => Started(GetCategoryIds(p.finalCategories, ids, draws), catalog)
  }

  /** The table `fillTable` leaves for the given ids. */
  function Started(final: seq<Option<Id>>, catalog: Catalog): (r: Page)
    ensures r.finalCategories == final
    ensures r.headers == FillTable(final, catalog).headers
    ensures IsFreshBody(r.body) <==> FillTable(final, catalog).Filled?
    ensures !IsFreshBody(r.body) ==> r.body == []
  {
    match FillTable(final, catalog)
    case Filled(headers) => Page(final, headers, FreshBody())
    case Aborted(headers) => Page(final, headers, [])
  }

  /** As written, a restart cannot change the categories: once a game has
      started, the next `setupAndStart` shows the same headers whatever ids
      it draws, because only the first six entries are ever read. */
  lemma RestartReusesFirstCategories(p: Page, listing: seq<Id>, draws: seq<nat>, catalog: Catalog)
    requires |p.finalCategories| >= Columns && |draws| == Columns
    ensures SetupAndStart(p, Some(listing), draws, catalog).headers
            == FillTable(p.finalCategories, catalog).headers
  {
    var grown := GetCategoryIds(p.finalCategories, listing, draws);
    assert grown == p.finalCategories + grown[|p.finalCategories|..];
    FillTableReadsFirstSix(p.finalCategories, grown[|p.finalCategories|..], catalog);
  }

  /** A concrete restart: the first game draws only category 1, the second
      only category 2, yet every header of the second game is category 1's. */
  lemma RestartCounterexample()
    ensures
      var catalog := map[1 := Category("one", [Clue("q1", "a1")]), 2 := Category("two", [Clue("q2", "a2")])];
      var draws := [0, 0, 0, 0, 0, 0];
      var first := SetupAndStart(InitialPage, Some([1]), draws, catalog);
      var second := SetupAndStart(first, Some([2]), draws, catalog);
      second.headers == ["one", "one", "one", "one", "one", "one"]
  {
    var catalog := map[1 := Category("one", [Clue("q1", "a1")]), 2 := Category("two", [Clue("q2", "a2")])];
    var draws := [0, 0, 0, 0, 0, 0];
    var first := SetupAndStart(InitialPage, Some([1]), draws, catalog);
    assert first.finalCategories == [Some(1), Some(1), Some(1), Some(1), Some(1), Some(1)];
    RestartReusesFirstCategories(first, [2], draws, catalog);
  }

  /** `setupAndStart` with the selection reset on every start: the game's
      ids are exactly the six drawn now. */
  function SetupAndStartFresh(p: Page, listing: Option<seq<Id>>, draws: seq<nat>, catalog: Catalog): (r: Page)
    requires |draws| == Columns
    ensures listing.None? ==> r == Page([], [], [])
    ensures listing.Some? ==> r.finalCategories == GetCategoryIds([], listing.value, draws)
    ensures r.headers == (if listing.None? then [] else FillTable(r.finalCategories, catalog).headers)
    ensures IsFreshBody(r.body) <==> listing.Some? && FillTable(r.finalCategories, catalog).Filled?
  {
    match listing
    case None => Page([], [], [])
    case Some(ids) => Started(GetCategoryIds([], ids, draws), catalog)
  }

  /** With the reset, nothing of an earlier game leaks into the next one:
      the new page does not depend on the previous page at all. */
  lemma FreshStartForgetsPreviousGame(p: Page, q: Page, listing: Option<seq<Id>>, draws: seq<nat>, catalog: Catalog)
    requires |draws| == Columns
    ensures SetupAndStartFresh(p, listing, draws, catalog) == SetupAndStartFresh(q, listing, draws, catalog)
  {
  }

  /** With the reset, header i of the new game is the title of the i-th id
      drawn for it. */
  lemma FreshStartUsesNewDraws(p: Page, listing: seq<Id>, draws: seq<nat>, catalog: Catalog, i: nat)
    requires |draws| == Columns && i < Columns
    ensures var g := SetupAndStartFresh(p, Some(listing), draws, catalog);
            i < |g.headers| ==>
              && Sample(listing, draws[i]).Some?
              && Sample(listing, draws[i]).value in catalog
              && g.headers[i] == catalog[Sample(listing, draws[i]).value].title
  {
    var final := GetCategoryIds([], listing, draws);
    var fill := FillTable(final, catalog);
    assert SetupAndStartFresh(p, Some(listing), draws, catalog).headers == fill.headers;
    assert IdAt(final, i) == final[0 + i] == Sample(listing, draws[i]);
  }

  /** With the reset, a new game's first click on column c shows a clue of
      the c-th category drawn for that game. */
  lemma FreshGameClickUsesItsColumn(p: Page, listing: seq<Id>, draws: seq<nat>, catalog: Catalog,
                                    row: nat, col: nat, draw: nat)
    requires |draws| == Columns && row < Rows && col < Columns
    ensures var g := SetupAndStartFresh(p, Some(listing), draws, catalog);
            row < |g.body| && col < |g.body[row]| ==>
              var c := HandleClick(g, catalog, row, col, draw).body[row][col];
              c.marker == Question ==>
                && Sample(listing, draws[col]).Some?
                && Clue(c.text, c.answer) in catalog[Sample(listing, draws[col]).value].clues
  {
    var g := SetupAndStartFresh(p, Some(listing), draws, catalog);
    if row < |g.body| && col < |g.body[row]| {
      assert g.body[row][col] == InitialCell;
      assert g.finalCategories[col] == Sample(listing, draws[col]);
    }
  }
}

=== FILE: reveal.dfy ===
/** The per-cell clue reveal machine of `handleClick` (jeopardy.js:96-112).
    A board cell carries a `showing` marker (unset, 'question', 'answer'),
    the text it displays and the `answer` attribute stored on the first
    click. */
module Reveal {
  import opened Wrappers

  /** The `showing` marker: absent, 'question' or 'answer'. */
  datatype Marker = Hidden | Question | Answer

  /** A clue of a category as the trivia API returns it. */
  datatype Clue = Clue(question: string, answer: string)

  /** A body cell: its marker, its displayed text and its stored answer
      attribute (empty while the attribute is absent). */
  datatype Cell = Cell(marker: Marker, text: string, answer: string)

  /** The text a fresh body cell displays. */
  const Unrevealed: string := "?"

  /** A cell as `fillTable` creates it: showing "?" with no marker. */
  const InitialCell: Cell := Cell(Hidden, Unrevealed, "")

  /** Position of a marker along Hidden -> Question -> Answer. */
  function Rank(m: Marker): nat
  {
    match m
    case Hidden => 0
    case Question => 1
    case Answer => 2
  }

  /** What a cell may look like at any point of the game: a hidden cell
      still shows "?" and has no stored answer, and a cell showing its
      answer displays exactly the stored answer. */
  predicate Valid(c: Cell)
  {
    && (c.marker == Hidden ==> c.text == Unrevealed && c.answer == "")
    && (c.marker == Answer ==> c.text == c.answer)
  }

  /** One click on a cell. `sampled` is the clue drawn from the column's
      category when the cell has no marker; `None` means the fetch failed
      or the category had no clues, in which case the handler throws before
      touching the cell. A cell that already has a marker ignores it. */
  function Activate(c: Cell, sampled: Option<Clue>): (r: Cell)
    // the marker never moves backwards and never skips a state
    ensures Rank(c.marker) <= Rank(r.marker) <= Rank(c.marker) + 1
    // a click either advances the marker or changes nothing at all
    ensures r.marker == c.marker ==> r == c
    // first click: show the sampled question and store its answer
    ensures c.marker == Hidden && sampled.Some? ==>
              r == Cell(Question, sampled.value.question, sampled.value.answer)
    ensures c.marker == Hidden && sampled.None? ==> r == c
    // second click: show the answer stored by the first, no re-sampling
    ensures c.marker == Question ==> r.marker == Answer && r.text == c.answer && r.answer == c.answer
    // later clicks are ignored
    ensures c.marker == Answer ==> r == c
    ensures Valid(c) ==> Valid(r)
  {
    match c.marker
    case Hidden =>
      (match sampled
       case None => c
       case Some(clue) => Cell(Question, clue.question, clue.answer))
    case Question => c.(marker := Answer, text := c.answer)
    case Answer => c
  }

  /** A cell after a sequence of clicks, `samples[k]` being what the k-th
      click would draw if the cell were still hidden. */
  function ActivateAll(c: Cell, samples: seq<Option<Clue>>): (r: Cell)
    decreases |samples|
  {
    if |samples| == 0 then c else ActivateAll(Activate(c, samples[0]), samples[1..])
  }

  /** Over any sequence of clicks the marker only moves forward and
      validity is kept. */
  lemma {:induction false} ActivateAllMonotone(c: Cell, samples: seq<Option<Clue>>)
    ensures Rank(c.marker) <= Rank(ActivateAll(c, samples).marker)
    ensures Valid(c) ==> Valid(ActivateAll(c, samples))
    decreases |samples|
  {
    if |samples| > 0 {
      ActivateAllMonotone(Activate(c, samples[0]), samples[1..]);
    }
  }

  /** Once a cell shows its answer, no number of clicks changes it. */
  lemma {:induction false} AnswerIsTerminal(c: Cell, samples: seq<Option<Clue>>)
    requires c.marker == Answer
    ensures ActivateAll(c, samples) == c
    decreases |samples|
  {
    if |samples| > 0 {
      AnswerIsTerminal(Activate(c, samples[0]), samples[1..]);
    }
  }

  /** A fresh cell clicked n times, the first fetch succeeding: Hidden after
      no click, the first sample's question after one, and the first
      sample's answer after two or more -- whatever later clicks would have
      drawn, failed fetches included. */
  lemma ClicksFromInitial(samples: seq<Option<Clue>>)
    requires |samples| == 0 || samples[0].Some?
    ensures |samples| == 0 ==> ActivateAll(InitialCell, samples) == InitialCell
    ensures |samples| == 1 ==>
              ActivateAll(InitialCell, samples)
                == Cell(Question, samples[0].value.question, samples[0].value.answer)
    ensures |samples| >= 2 ==>
              ActivateAll(InitialCell, samples)
                == Cell(Answer, samples[0].value.answer, samples[0].value.answer)
  {
    if |samples| >= 1 {
      var q := Activate(InitialCell, samples[0]);
      assert ActivateAll(InitialCell, samples) == ActivateAll(q, samples[1..]);
      if |samples| >= 2 {
        var a := Activate(q, samples[1]);
        assert ActivateAll(q, samples[1..]) == ActivateAll(a, samples[2..]);
        AnswerIsTerminal(a, samples[2..]);
      }
    }
  }
}

=== FILE: sampling.dfy ===
/** Random sampling (lodash `_.sample`) with the random draw supplied by the
    caller, so that every function of the model is deterministic. */
module Sampling {
  import opened Wrappers

  /** One uniform draw from `xs`: the element at `draw` modulo the length.
      Sampling an empty array yields `undefined`, which is `None` here. */
  function Sample<T>(xs: seq<T>, draw: nat): (r: Option<T>)
    ensures r.None? <==> |xs| == 0
    ensures r.Some? ==> r.value in xs
  {
    if |xs| == 0 then None else Some(xs[draw % |xs|])
  }

  /** The draw parameter loses no behaviour: every element of a non-empty
      array is the outcome of some draw. */
  lemma SampleReaches<T>(xs: seq<T>, x: T)
    requires x in xs
    ensures exists draw: nat :: Sample(xs, draw) == Some(x)
  {
    var i :| 0 <= i < |xs| && xs[i] == x;
    assert i % |xs| == i;
    assert Sample(xs, i) == Some(x);
  }
}

=== FILE: wrappers.dfy ===
/** Optional values: `None` stands for JavaScript's `undefined`, which the
    game produces when it samples from an empty array or reads past the end
    of one. */
module Wrappers {

  datatype Option<+T> = None | Some(value: T)
}
